=== FILE: README.md ===
# Coach–athlete chat relay, modelled in Dafny

This project models the connection handler of a websocket relay. The relay
passes chat and typing events between coaches and athletes. Two maps are
shared by every connection:

- `connected_clients`: user id → live connection. The model calls it the *registry*.
- `offline_messages`: user id → chat frames waiting for a receiver who is not
  connected. The model calls it the *backlog*.

A connection's first frame is the handshake `{id, role}`. It registers the id
and replays that id's backlog. Every later frame is routed by its `type`:

- `chat` is checked, its role pairing is checked, and it is stored by the
  backend. Then it is delivered to the receiver's live connection, or queued
  when the receiver is offline.
- `typing` is forwarded to the receiver only if the receiver is connected.
- `get_chat_list` is answered from the backend.

When the connection ends, the handler deletes the id's registry entry.

The model is a pure step function. The state is `Relay.State(registry,
backlog)`. There are three events:

- `Connect(conn, first)`
- `Receive(conn, user, frame, env)`
- `Disconnect(conn, user)`

`Lifecycle.Step` returns the new state, the frames sent to each connection,
the backend calls made, and whether the handler is still running.

Inbound frames are decoded JSON (`Values.Json`) or `Malformed`. The handler
never checks a frame's shape before using it, so the model keeps the Python
behaviour that depends on the shape:

- truth tests: `None`, `False`, `0`, `""`, `[]` and `{}` are false;
- `d.get(k)` returns `None` for a missing field;
- subscripts raise on missing fields and on values that are not dicts;
- dictionary keys compare by value, and `True == 1`;
- lists and dicts cannot be hashed, so they cannot be keys.

An exception inside the loop ends the loop. The cleanup then runs for the
handler's `user_id`. The model represents this as `broke` / `Closed`.

The model follows the code as written, including three behaviours a reader
might not expect:

- Both maps are keyed by the bare id, with no role. An athlete and a coach
  with the same id share one entry (`Properties.AthleteAndCoachShareEntry`).
- The cleanup deletes the registry entry of its id without checking which
  connection owns it. The teardown of a superseded connection therefore
  removes its replacement's entry
  (`Properties.StaleTeardownEvictsNewerConnection`).
- `user_id` is read before the handshake is checked. A rejected handshake
  that carried a true id therefore still evicts the live entry for that id
  (`Properties.RejectedHandshakeEvictsLiveEntry`).

Other consequences of the code as written:

- Any non-empty string is accepted as a handshake role (for strings of Unicode
  scalar values; see "## Left out").
- `get_chat_list` does not check that its `id` is a coach.
- A backend reply that is not JSON reports "Could not contact backend". This
  holds even for a non-201 status, because the logging call `res.json()`
  raises first.

Files:

- `values.dfy`: decoded JSON, truth values, field access and dictionary keys.
- `protocol.dfy`: frames, backend calls and outcomes, error texts.
- `relay.dfy`: the shared state and its map operations.
- `router.dfy`: routing one frame.
- `lifecycle.dfy`: handshake, events, teardown, runs.
- `properties.dfy`: per-event properties.
- `delivery_order.dfy`: the state invariant and FIFO replay across runs.

## Model

| member | source | states |
|---|---|---|
| Values.Truthy | main.py:24 | a value is false exactly when it is `None`, `False`, `0`, `""`, `[]` or `{}`, as every `not x` test in the handler (main.py:24, 47, 56, 112, 157) reads it |
| Values.Get | main.py:21-22 | `d.get(name)` gives the field wherever the subscript would succeed, and `None` wherever it would raise |
| Values.Index | main.py:61-66 | `v[name]` succeeds exactly when `v` is a dict holding `name`, and then yields that field; anything else raises |
| Values.KeyOf | main.py:29 | a value can key the maps exactly when it is not a list or dict, and the key is true exactly when the value is |
| Values.SameKeySameValue | main.py:102 | two hashable values reach the same map entry exactly when they are equal or are `true`/`1` or `false`/`0` |
| Relay.Lookup | main.py:102 | `connected_clients.get(k)` gives a connection exactly when `k` is registered, and then its registered connection |
| Relay.Register | main.py:29 | after registering, the id looks up to the new connection, every other id looks up as before, and no backlog changes |
| Relay.Unregister | main.py:157-158 | after deletion, the id looks up to nothing, whatever connection held it; other ids and all backlogs are unchanged |
| Relay.Enqueue | main.py:107 | the payload is appended once at the end of the receiver's backlog, created if absent; other backlogs and the registry are unchanged |
| Relay.ClearBacklog | main.py:37 | the id's backlog is removed; other backlogs and the registry are unchanged |
| Relay.DeliverAll | main.py:35-36 | one chat frame per queued payload, all to the new connection, in queue order |
| Relay.DrainBacklog | main.py:34-37 | the replay loop sends the i-th queued payload as the i-th frame, sends nothing when there is no backlog, then clears it |
| Router.PairRoles | main.py:61-69 | pairing succeeds exactly for athlete→coach or coach→athlete with both ids present, with ids in (athlete, coach) order; it is refused exactly when the sender has a role outside the two, or both have roles that do not pair; otherwise a subscript raises |
| Router.SaveError | main.py:80-91 | the chat counts as stored only on status 201 with a JSON body; any other status with a JSON body gives "Failed to save chat message"; otherwise "Could not contact backend" |
| Router.DecideChat | main.py:51-102 | a chat is accepted exactly when it is complete, paired, stored with 201 and JSON, and has a hashable receiver id, and then for that receiver with `{from, to, message, timestamp}`; it crashes exactly when a role or id subscript raises or the stored chat's receiver id is unhashable; it is refused as incomplete exactly when sender, receiver or text is false, for roles exactly on a mismatch, and with the store's error whenever the store failed; validation refusals call no backend, and backend refusals call it once |
| Router.ChatListReply | main.py:121-141 | a 200 reply whose body is a dict gives its `athletes` (default `[]`); any other status gives "Failed to fetch athlete list"; a 200 reply with a bad body, or an exception, gives "Server error" |
| Router.Route | main.py:39-150 | one frame never changes the registry, sends at most one frame, makes at most one backend call, and changes state only by a single enqueue; an unparseable frame never ends the loop, a decoded frame that is not an object always does, a chat ends it exactly when its handling raises, a typing frame breaks exactly as `RouteTyping` says, and an unknown type never does; a frame that raises sends nothing and changes nothing |
| Router.RouteChat | main.py:93-107 | a chat changes at most one backlog by one append and never the registry, and ends the loop exactly when its handling raises |
| Router.RouteTyping | main.py:109-119 | typing never changes state or calls the backend, and anything it sends is `{type: "typing", from: sender}`; with a false sender or receiver it is dropped, otherwise it ends the loop exactly when the receiver has no `id` or an unhashable one |
| Lifecycle.Teardown | main.py:156-158 | the cleanup deletes the entry of a true, hashable id and otherwise changes nothing; backlogs are never touched |
| Lifecycle.Handshake | main.py:17-37 | an opened session has a true, hashable id and a string role; the state registers that id to the new connection and clears its backlog, after replaying the backlog; a rejected handshake leaves exactly the cleanup's effect for the `id` it carried (nothing for a malformed or non-dict frame), and sends "Missing id or role" exactly when a dict lacks a true id or role, otherwise nothing |
| Lifecycle.Run | main.py:143-158 | a run of no events changes nothing, and the first event's frames go out before any later event's |
| Lifecycle.Step | main.py:143-158 | a first frame is exactly the handshake, so it registers only its own id; a later frame changes backlogs only as routing does; a disconnect is exactly the cleanup, sends nothing and closes the session |
| Properties.HandshakeOpensExactlyOnClaim | main.py:21-29 | a session for id k opens, bound to the new connection, if and only if the first frame is a dict with a true `id` keyed k and a true string `role` |
| Properties.HandshakeWithoutIdOrRole | main.py:21-26 | a handshake lacking a true id or role gets exactly `{"error": "Missing id or role"}`, ends, adds no registry entry, keeps every entry except the carried id's, and keeps every backlog |
| Properties.RejectedHandshakeEvictsLiveEntry | main.py:21-26 | a rejected handshake that carried a registered true id removes that id's live entry |
| Properties.HandshakeReplaysBacklog | main.py:34-37 | an accepted handshake sends exactly the id's backlog, oldest first, nothing when there is none, then removes it and leaves other backlogs alone |
| Properties.RegisterReplaces | main.py:29 | registering an id twice equals registering it once with the later connection |
| Properties.TeardownIdempotent | main.py:157-158 | running the cleanup twice equals running it once |
| Properties.StaleTeardownEvictsNewerConnection | main.py:157-158 | after two handshakes for one id, the id maps to the second connection; the first connection's teardown then leaves the id unregistered |
| Properties.AthleteAndCoachShareEntry | main.py:102 | a coach registering the id an athlete holds takes over the entry, and a chat stored for that athlete is sent to the coach's connection |
| Properties.MalformedFrameAnswered | main.py:146-147 | an unparseable frame gets exactly "Invalid JSON", with no state change and no backend call, and the loop continues |
| Properties.MissingTypeAnswered | main.py:45-49 | a frame without a true `type` gets exactly "Missing message type", with no state change and no backend call, and the loop continues |
| Properties.IncompleteChatAnswered | main.py:52-58 | a chat without a true sender, receiver or text gets exactly "Incomplete chat message", with no state change and no backend call, and the loop continues |
| Properties.ErrorReplyChangesNothing | main.py:47-91 | any error reply goes only to the sender and leaves registry and backlog unchanged, with the loop still running |
| Properties.InvalidRolesAnswered | main.py:67-69 | any other pairing gets exactly "Invalid sender/receiver roles", with no backend call and no state change |
| Properties.PairedChatSavedOnce | main.py:71-79 | a complete, paired chat makes exactly one store call with the athlete id, coach id and text |
| Properties.FailedSaveDropsChat | main.py:80-91 | a failed store sends the matching error to the sender only, and the chat is neither delivered nor queued |
| Properties.StoredChatDeliveredXorQueued | main.py:71-107 | a complete, paired chat stored with 201 and a hashable receiver id makes one store call and is sent as `{from, to, message, timestamp}` to the receiver's registered connection with the state unchanged, or else appended once to that receiver's backlog with nothing sent; the loop goes on |
| Properties.NeverDeliveredAndQueued | main.py:102-107 | no frame both sends a chat and changes a backlog |
| Properties.TypingIsBestEffort | main.py:109-119 | typing never touches the backlog or the backend, sends only typing frames, and is dropped when sender or receiver is missing |
| Properties.TypingForwardedIffRegistered | main.py:114-119 | typing reaches the registered receiver's connection, and is dropped if the receiver is unregistered |
| Properties.ChatListAnswered | main.py:121-141 | a roster request makes one fetch with its `id`, is answered on the same connection, and changes no state |
| Properties.UnknownTypeIgnored | main.py:51-121 | a true `type` other than the three known ones does nothing |
| Properties.CrashRunsTeardown | main.py:148-158 | a frame whose handling raises ends the loop, sends nothing, and leaves exactly the cleanup's effect |
| DeliveryOrder.InitialValid | main.py:10-11 | the empty maps satisfy the state invariant |
| DeliveryOrder.StepPreservesValid | main.py:29-107 | every event keeps registered ids true, backlogs non-empty, and no id both registered and holding a backlog |
| DeliveryOrder.RunPreservesValid | main.py:13-158 | every run of events keeps that invariant |
| DeliveryOrder.StepWhileOffline | main.py:102-107 | while an id is not registered and not handshaking, one event keeps it unregistered and appends to its backlog exactly the chat stored for it |
| DeliveryOrder.BacklogGrowsInOrder | main.py:107 | while an id stays away, its backlog grows by the chats stored for it, in handling order |
| DeliveryOrder.OfflineChatsReplayedInOrder | main.py:34-37 | chats stored while an id was offline are replayed at its next handshake, in storage order, after anything queued before; the backlog is then empty and the id maps to the new connection |
| DeliveryOrder.FirstHandshakeReplaysEverything | main.py:34-37 | from empty maps, an id's first handshake replays exactly the chats stored for it before |

## Left out

- Transport: `recv`, `send`, `close`, keepalive pings, the listener, `PORT` and
  `main()` (main.py:8, main.py:160-171). Connections are opaque handles. Every
  send is taken to succeed. A send that raises `ConnectionClosed` would break
  the sender's loop. It would also lose a chat already stored by the backend.
  Neither is modelled.
- Interleaving at `await` points: each event is one atomic step. In the code,
  another connection can run during the backlog replay (main.py:35-36). It
  could append to the list being replayed, or register the same id. Since
  the id is registered (main.py:29) before the replay starts, a chat for that
  id handled by another connection during a replay send is delivered inline
  at once (main.py:102-104), and can reach the client ahead of older backlog
  entries. `DeliveryOrder.OfflineChatsReplayedInOrder` therefore promises
  first-in-first-out order, and "before any other frame on that connection",
  only for atomic steps. The partial replay left when a send fails mid-loop
  is not modelled either.
- HTTP: `requests.post` and `requests.get` (main.py:72-79, main.py:124) are
  replaced by the outcome inputs `SaveOutcome` and `FetchOutcome`. The store
  call is recorded as a `BackendCall`.
- The clock: `datetime.utcnow().isoformat()` (main.py:86) is the input
  `Env.now`.
- Frames that fail to decode in some other way: a binary frame that is not
  valid UTF-8 raises `UnicodeDecodeError`, deeply nested input raises
  `RecursionError`, and (from Python 3.11) an integer literal longer than
  4300 digits raises a plain `ValueError`. None of these is a
  `JSONDecodeError`, so in the code such a frame breaks the loop
  (main.py:148-150) rather than getting "Invalid JSON", and as a first frame
  it reaches the outer handler. The model's `Malformed` covers only frames
  that `json.loads` rejects with `JSONDecodeError`, and it accepts
  `Parsed(JNum(n))` for an integer `n` of any length.
- JSON text: parsing and serialisation are not modelled. Frames arrive
  decoded, or as `Malformed`. JSON numbers are integers only. Floating point
  is left out, so the key equality `1.0 == 1` is not modelled.
- Lone surrogates: a decoded JSON string can hold one (`"\ud800"`); the model's
  strings hold only Unicode scalar values, and every `print` is taken never to
  raise. In the code, printing such a role or id raises after the registration
  (main.py:29-30), so the cleanup evicts the id and the backlog is not
  replayed. Printing such a receiver id (main.py:106) raises after the backend
  stored the chat, so the chat is neither queued nor delivered and the
  sender's loop ends.
- Logging: every `print` call, and `user_name`. Computing `user_name` is
  modelled only in the one way it matters: a role that is not a string makes
  `capitalize()` raise.
- A connection that closes before its first frame: the cleanup runs with no
  id and changes nothing. This is the same as `Disconnect` with a false id.
- When the cleanup's membership test raises on an unhashable id, the
  exception escapes the handler and the transport is not closed. The model
  records only that the state is unchanged.

=== FILE: delivery_order.dfy ===
/** Properties of whole runs of events: the shape the shared state always
    keeps, and first-in-first-out delivery to a receiver who was offline. */
module DeliveryOrder {
  import opened Values
  import opened Protocol
  import opened Relay
  import Router
  import opened Lifecycle
  import opened Properties

  /** The shape of the shared state between events: registered ids are true
      values, a backlog entry is never empty, and no id is both registered
      and holding a backlog (chats for a registered id are delivered, and a
      registration drains the backlog at once). */
  ghost predicate Valid(s: State) {
    && (forall k :: k in s.registry ==> KeyTruthy(k))
    && (forall k :: k in s.backlog ==> s.backlog[k] != [])
    && s.registry.Keys !! s.backlog.Keys
  }

  lemma InitialValid()
    ensures Valid(Initial)
  {
  }

  /** Every event keeps the shape. */
  lemma StepPreservesValid(s: State, e: Event)
    requires Valid(s)
    ensures Valid(Step(s, e).state)
  {
    match e
    case Connect(c, f) =>
    case Receive(c, u, f, env) =>
      var r := Router.Route(s, c, f, env);
      if !r.broke && r.state != s {
        var k, p :| r.state == Enqueue(s, k, p);
        assert Lookup(s, k) == None by {
          // only a chat to an unregistered receiver grows a backlog
          RouteGrowsOnlyUnregistered(s, c, f, env, k, p);
        }
      }
    case Disconnect(c, u) =>
  }

  /** A frame that grows a backlog grows the backlog of an id that is not
      registered. */
  lemma RouteGrowsOnlyUnregistered(s: State, c: Conn, f: Inbound, env: Env, k: Key, p: ChatPayload)
    requires Router.Route(s, c, f, env).state == Enqueue(s, k, p)
    requires Router.Route(s, c, f, env).state != s
    ensures Lookup(s, k) == None
  {
    var m := f.value.fields;
    var d := Router.DecideChat(m, env);
    assert d.Accepted? && Lookup(s, d.receiver) == None;
    assert |Pending(Enqueue(s, k, p), d.receiver)| == |Pending(s, d.receiver)| + 1;
    assert k == d.receiver;
  }

  lemma {:induction false} RunPreservesValid(s: State, es: seq<Event>)
    requires Valid(s)
    ensures Valid(Run(s, es).state)
    decreases |es|
  {
    if es != [] {
      StepPreservesValid(s, es[0]);
      RunPreservesValid(Step(s, es[0]).state, es[1..]);
    }
  }

  /** What one event appends to `k`'s backlog while `k` is not registered:
      the chat the backend stored for receiver `k`, if any. */
  function QueuedBy(e: Event, k: Key): seq<ChatPayload> {
    match e
    case Receive(_, _, Parsed(JObj(m)), env) =>
      if Get(m, "type") == JStr("chat") then
        match Router.DecideChat(m, env)
        case Accepted(to, p, _) => if to == k then [p] else []
        case _ => []
      else []
    case _ => []
  }

  /** What a run of events appends to `k`'s backlog, in event order. */
  function QueuedDuring(es: seq<Event>, k: Key): seq<ChatPayload>
    decreases |es|
  {
    if es == [] then [] else QueuedBy(es[0], k) + QueuedDuring(es[1..], k)
  }

  /** No event in `es` is a handshake claiming `k`. */
  predicate StaysAway(es: seq<Event>, k: Key)
    decreases |es|
  {
    es == [] || (!(es[0].Connect? && Claims(es[0].first, k)) && StaysAway(es[1..], k))
  }

  /** One event that is not a handshake for `k` keeps `k` unregistered and
      appends to its backlog exactly what `QueuedBy` names. */
  lemma StepWhileOffline(s: State, e: Event, k: Key)
    requires k !in s.registry
    requires !(e.Connect? && Claims(e.first, k))
    ensures k !in Step(s, e).state.registry
    ensures Pending(Step(s, e).state, k) == Pending(s, k) + QueuedBy(e, k)
  {
    match e
    case Connect(c, f) => HandshakeWhileOffline(s, c, f, k);
    case Receive(c, u, f, env) => ReceiveWhileOffline(s, c, u, f, env, k);
    case Disconnect(c, u) =>
  }

  lemma HandshakeWhileOffline(s: State, c: Conn, f: Inbound, k: Key)
    requires k !in s.registry
    requires !Claims(f, k)
    ensures k !in Handshake(s, c, f).state.registry
    ensures Pending(Handshake(s, c, f).state, k) == Pending(s, k)
  {
    HandshakeOpensExactlyOnClaim(s, c, f, k);
  }

  lemma ReceiveWhileOffline(s: State, c: Conn, u: Json, f: Inbound, env: Env, k: Key)
    requires k !in s.registry
    ensures k !in Step(s, Receive(c, u, f, env)).state.registry
    ensures Pending(Step(s, Receive(c, u, f, env)).state, k) == Pending(s, k) + QueuedBy(Receive(c, u, f, env), k)
  {
    var r := Router.Route(s, c, f, env);
    if f.Parsed? && f.value.JObj? && Get(f.value.fields, "type") == JStr("chat") {
      var d := Router.DecideChat(f.value.fields, env);
      if d.Accepted? && Lookup(s, d.receiver) == None {
        assert r.state == Enqueue(s, d.receiver, d.payload);
      } else {
        assert r.state == s;
      }
    } else {
      assert r.state == s;
    }
  }


  /** While `k` stays away, its backlog grows by the chats stored for it, in
      the order the frames were handled, and it stays unregistered. */
  lemma {:induction false} BacklogGrowsInOrder(s: State, es: seq<Event>, k: Key)
    requires k !in s.registry
    requires StaysAway(es, k)
    ensures k !in Run(s, es).state.registry
    ensures Pending(Run(s, es).state, k) == Pending(s, k) + QueuedDuring(es, k)
    decreases |es|
  {
    if es != [] {
      StepWhileOffline(s, es[0], k);
      BacklogGrowsInOrder(Step(s, es[0]).state, es[1..], k);
      GrowsAcrossFirstStep(s, es, k);
    }
  }

  /** The inductive step of `BacklogGrowsInOrder`: what the first event adds,
      followed by what the rest add. */
  lemma GrowsAcrossFirstStep(s: State, es: seq<Event>, k: Key)
    requires es != []
    requires Pending(Step(s, es[0]).state, k) == Pending(s, k) + QueuedBy(es[0], k)
    requires k !in Run(Step(s, es[0]).state, es[1..]).state.registry
    requires Pending(Run(Step(s, es[0]).state, es[1..]).state, k)
          == Pending(Step(s, es[0]).state, k) + QueuedDuring(es[1..], k)
    ensures k !in Run(s, es).state.registry
    ensures Pending(Run(s, es).state, k) == Pending(s, k) + QueuedDuring(es, k)
  {
    RunUnfold(s, es);
    QueuedUnfold(es, k);
    ConcatAssoc(Pending(s, k), QueuedBy(es[0], k), QueuedDuring(es[1..], k));
  }

  lemma ConcatAssoc<T>(a: seq<T>, b: seq<T>, c: seq<T>)
    ensures a + b + c == a + (b + c)
  {
  }


  /** One step of `Run` and of `QueuedDuring`, stated once so that the
      inductions here need not unfold either. */
  lemma RunUnfold(s: State, es: seq<Event>)
    requires es != []
    ensures Run(s, es).state == Run(Step(s, es[0]).state, es[1..]).state
    ensures Run(s, es).sent == Step(s, es[0]).sent + Run(Step(s, es[0]).state, es[1..]).sent
  {
  }

  lemma QueuedUnfold(es: seq<Event>, k: Key)
    requires es != []
    ensures QueuedDuring(es, k) == QueuedBy(es[0], k) + QueuedDuring(es[1..], k)
  {
  }


  /** Chats stored for a receiver who is offline reach it exactly once, in the
      order they were stored, at its next handshake, before any other frame
      on that connection, and its backlog is empty afterwards. This holds
      because every event is one atomic step: in the handler the id is
      registered before the replay's sends, so a chat handled elsewhere during
      a send would be delivered inline, ahead of older backlog entries. */
  lemma {:induction false} OfflineChatsReplayedInOrder(s: State, es: seq<Event>, c: Conn, f: Inbound, k: Key)
    requires k !in s.registry
    requires StaysAway(es, k)
    requires Claims(f, k)
    ensures var o := Step(Run(s, es).state, Connect(c, f));
      && o.sent == DeliverAll(c, Pending(s, k) + QueuedDuring(es, k))
      && Pending(o.state, k) == []
      && Lookup(o.state, k) == Some(c)
  {
    BacklogGrowsInOrder(s, es, k);
    HandshakeOpensExactlyOnClaim(Run(s, es).state, c, f, k);
  }

  /** From a fresh start, the chats stored for `k` while it was away are
      exactly what its first handshake replays. */
  lemma {:induction false} FirstHandshakeReplaysEverything(es: seq<Event>, c: Conn, f: Inbound, k: Key)
    requires StaysAway(es, k)
    requires Claims(f, k)
    ensures Step(Run(Initial, es).state, Connect(c, f)).sent == DeliverAll(c, QueuedDuring(es, k))
  {
    OfflineChatsReplayedInOrder(Initial, es, c, f, k);
  }
}

=== FILE: lifecycle.dfy ===
/** The life of one connection as a sequence of atomic events: the handshake
    (first frame), each later frame, and the disconnect, with the cleanup that
    runs on every way out. */
module Lifecycle {
  import opened Values
  import opened Protocol
  import opened Relay
  import Router

  /** What the handler holds after an event: the `user_id` its cleanup will
      use while the loop runs, or nothing once the handler has returned. */
  datatype Session = Open(user: Json) | Closed

  /** The effect of one event on the shared state and on the wire. */
  datatype Outcome = Outcome(state: State, sent: seq<Delivery>, calls: seq<BackendCall>, session: Session)

  datatype Event =
    | Connect(conn: Conn, first: Inbound)
    | Receive(conn: Conn, user: Json, frame: Inbound, env: Env)
    | Disconnect(conn: Conn, user: Json)

  /** The cleanup that ends every handler: when `user` is a true value that
      is registered, its entry is deleted, without asking which connection it
      belongs to. An unhashable `user` makes the membership test raise, so
      nothing is deleted. */
  function Teardown(s: State, user: Json): (t: State)
    ensures t.backlog == s.backlog
    ensures Truthy(user) && KeyOf(user).Some? ==> t == Unregister(s, KeyOf(user).value)
    ensures !(Truthy(user) && KeyOf(user).Some?) ==> t == s
  {
    if Truthy(user) then
      match KeyOf(user)
      case Some(k) => Unregister(s, k)
      case None => s
    else s
  }

  /** The first frame of a connection. A frame without a true `id` and a true
      `role` is answered with "Missing id or role"; the cleanup then still
      runs with whatever `id` it carried. A role that is not a string makes
      `capitalize()` raise before registration. Otherwise the id is
      registered for `conn` and its backlog is replayed and deleted. */
  function Handshake(s: State, conn: Conn, first: Inbound): (o: Outcome)
    ensures o.calls == []
    ensures o.session.Open? ==>
      && first.Parsed? && first.value.JObj?
      && o.session.user == Get(first.value.fields, "id")
      && Truthy(o.session.user) && Truthy(Get(first.value.fields, "role"))
      && Get(first.value.fields, "role").JStr?
      && KeyOf(o.session.user).Some?
      && var k := KeyOf(o.session.user).value;
         && o.state == ClearBacklog(Register(s, k, conn), k)
         && o.sent == DeliverAll(conn, Pending(s, k))
    ensures o.session.Closed? ==> o.state.backlog == s.backlog && o.state.registry.Keys <= s.registry.Keys
    ensures o.session.Closed? ==>
      o.state == Teardown(s, if first.Parsed? && first.value.JObj? then Get(first.value.fields, "id") else JNull)
    ensures o.session.Closed? ==>
      o.sent == (if first.Parsed? && first.value.JObj?
                    && (!Truthy(Get(first.value.fields, "id")) || !Truthy(Get(first.value.fields, "role")))
                 then [Delivery(conn, Error(MissingIdOrRole))] else [])
  {
    match first
    case Malformed => Outcome(s, [], [], Closed)
    case Parsed(v) =>
      match v
      case JObj(m) =>
        var user := Get(m, "id");
        var role := Get(m, "role");
        if !Truthy(user) || !Truthy(role) then
          Outcome(Teardown(s, user), [Delivery(conn, Error(MissingIdOrRole))], [], Closed)
        else if !role.JStr? then
          Outcome(Teardown(s, user), [], [], Closed)
        else
          (match KeyOf(user)
           case None =>
             // registration raises, and so does the cleanup's membership test
             Outcome(s, [], [], Closed)
           case Some(k) =>
             var registered := Register(s, k, conn);
             Outcome(ClearBacklog(registered, k), DeliverAll(conn, Pending(registered, k)), [], Open(user)))
      case _ =>
        // `.get` on a value that is not a dict raises before `user_id` is set
        Outcome(s, [], [], Closed)
  }

  /** One atomic event. A frame whose handling raises ends the loop, and the
      cleanup then runs for the handler's `user_id`. */
  function Step(s: State, e: Event): (o: Outcome)
    ensures e.Receive? ==> o.state.backlog == Router.Route(s, e.conn, e.frame, e.env).state.backlog
    ensures e.Connect? ==> o == Handshake(s, e.conn, e.first)
    ensures e.Disconnect? ==> o.state == Teardown(s, e.user) && o.sent == [] && o.session.Closed?
  {
    match e
    case Connect(conn, first) => Handshake(s, conn, first)
    case Receive(conn, user, frame, env) =>
      var r := Router.Route(s, conn, frame, env);
      if r.broke then Outcome(Teardown(r.state, user), r.sent, r.calls, Closed)
      else Outcome(r.state, r.sent, r.calls, Open(user))
    case Disconnect(_, user) => Outcome(Teardown(s, user), [], [], Closed)
  }

  /** The state and the frames sent, in order, after a sequence of events. */
  datatype Trace = Trace(state: State, sent: seq<Delivery>)

  /** Events handled one after another: the state threads through them and
      each event's frames go out ahead of every later event's. */
  function Run(s: State, es: seq<Event>): (t: Trace)
    ensures es == [] ==> t == Trace(s, [])
    ensures es != [] ==> Step(s, es[0]).sent <= t.sent
    decreases |es|
  {
    if es == [] then Trace(s, [])
    else
      var o := Step(s, es[0]);
      var rest := Run(o.state, es[1..]);
      Trace(rest.state, o.sent + rest.sent)
  }
}

=== FILE: properties.dfy ===
/** What one event does, stated against the relay's promises: handshake
    acceptance and rejection, the error replies that change nothing, the two
    role pairings, the backend gate, deliver-or-queue, typing, and teardown. */
module Properties {
  import opened Values
  import opened Protocol
  import opened Relay
  import opened Router
  import opened Lifecycle

  /** A first frame that claims id `k`: a dict with a true `id` hashing to
      `k` and a non-empty string `role`. The role's value is not checked. */
  predicate Claims(f: Inbound, k: Key) {
    && f.Parsed? && f.value.JObj?
    && Truthy(Get(f.value.fields, "id"))
    && KeyOf(Get(f.value.fields, "id")) == Some(k)
    && Truthy(Get(f.value.fields, "role"))
    && Get(f.value.fields, "role").JStr?
  }

  /** The frame holding the decoded object `m`. */
  function FrameOf(m: map<string, Json>): Inbound {
    Parsed(JObj(m))
  }

  // ---------------------------------------------------------------- handshake

  /** A handshake opens a session for `k`, bound to the new connection, exactly
      when its first frame claims `k`. */
  lemma HandshakeOpensExactlyOnClaim(s: State, c: Conn, f: Inbound, k: Key)
    ensures Claims(f, k) ==>
      && Handshake(s, c, f).session.Open?
      && KeyOf(Handshake(s, c, f).session.user) == Some(k)
      && Lookup(Handshake(s, c, f).state, k) == Some(c)
    ensures Handshake(s, c, f).session.Open? && KeyOf(Handshake(s, c, f).session.user) == Some(k) ==>
      Claims(f, k)
  {
  }

  /** A first frame without a true `id` or a true `role` gets exactly the
      "Missing id or role" error, ends the connection, registers nothing, and
      leaves every entry except the carried id's as it was. */
  lemma HandshakeWithoutIdOrRole(s: State, c: Conn, m: map<string, Json>)
    requires !Truthy(Get(m, "id")) || !Truthy(Get(m, "role"))
    ensures var o := Step(s, Connect(c, FrameOf(m)));
      && o.sent == [Delivery(c, Error(MissingIdOrRole))]
      && o.session.Closed?
      && o.state.backlog == s.backlog
      && (forall k :: Lookup(o.state, k).Some? ==> Lookup(o.state, k) == Lookup(s, k))
      && (forall k :: Some(k) != KeyOf(Get(m, "id")) ==> Lookup(o.state, k) == Lookup(s, k))
  {
  }

  /** The cleanup of a rejected handshake still runs with the id the frame
      carried, so a rejected frame with a true id evicts whichever connection
      that id is registered to. */
  lemma RejectedHandshakeEvictsLiveEntry(s: State, c: Conn, m: map<string, Json>, k: Key)
    requires Truthy(Get(m, "id")) && KeyOf(Get(m, "id")) == Some(k)
    requires !Truthy(Get(m, "role"))
    requires Lookup(s, k).Some?
    ensures Lookup(Step(s, Connect(c, FrameOf(m))).state, k) == None
    ensures Step(s, Connect(c, FrameOf(m))).sent == [Delivery(c, Error(MissingIdOrRole))]
  {
  }

  /** An accepted handshake sends the connection its whole backlog, oldest
      first and nothing else, then deletes the backlog; with no backlog it
      sends nothing. */
  lemma HandshakeReplaysBacklog(s: State, c: Conn, f: Inbound, k: Key)
    requires Claims(f, k)
    ensures |Step(s, Connect(c, f)).sent| == |Pending(s, k)|
    ensures forall i :: 0 <= i < |Pending(s, k)| ==>
      Step(s, Connect(c, f)).sent[i] == Delivery(c, Chat(Pending(s, k)[i]))
    ensures Pending(s, k) == [] ==> Step(s, Connect(c, f)).sent == []
    ensures k !in Step(s, Connect(c, f)).state.backlog
    ensures forall j :: j != k ==> Pending(Step(s, Connect(c, f)).state, j) == Pending(s, j)
  {
  }

  // ----------------------------------------------------------------- registry

  /** Registering an id twice keeps only the later connection. */
  lemma RegisterReplaces(s: State, k: Key, c1: Conn, c2: Conn)
    ensures Register(Register(s, k, c1), k, c2) == Register(s, k, c2)
    ensures Lookup(Register(Register(s, k, c1), k, c2), k) == Some(c2)
  {
  }

  /** Teardown is idempotent: running it again for an id already removed
      changes nothing. */
  lemma TeardownIdempotent(s: State, user: Json)
    ensures Teardown(Teardown(s, user), user) == Teardown(s, user)
  {
  }

  /** When a user reconnects before the old connection's teardown runs, that
      stale teardown removes the new connection's entry, leaving the new
      connection unregistered though it is still open. */
  lemma StaleTeardownEvictsNewerConnection(s: State, oldConn: Conn, newConn: Conn, f: Inbound, k: Key)
    requires Claims(f, k)
    ensures var t := Run(s, [Connect(oldConn, f), Connect(newConn, f)]).state;
      Lookup(t, k) == Some(newConn)
    ensures var t := Run(s, [Connect(oldConn, f), Connect(newConn, f), Disconnect(oldConn, f.value.fields["id"])]).state;
      Lookup(t, k) == None
  {
    var e1, e2 := Connect(oldConn, f), Connect(newConn, f);
    var e3 := Disconnect(oldConn, f.value.fields["id"]);
    var s1 := Step(s, e1).state;
    var s2 := Step(s1, e2).state;
    var s3 := Step(s2, e3).state;
    assert [e1, e2][1..] == [e2];
    assert [e1, e2, e3][1..] == [e2, e3];
    assert [e2, e3][1..] == [e3];
    assert Run(s1, [e2]).state == s2 by {
      assert Run(s2, []) == Trace(s2, []);
    }
    assert Run(s2, [e3]).state == s3 by {
      assert Run(s3, []) == Trace(s3, []);
    }
  }

  /** The registry and the backlog are keyed by id alone: an athlete and a
      coach with the same id share one entry, and a chat meant for the
      athlete reaches the coach's connection. */
  lemma AthleteAndCoachShareEntry(s: State, a: Conn, c: Conn, id: Json, k: Key, m: map<string, Json>, env: Env)
    requires Truthy(id) && KeyOf(id) == Some(k)
    requires Get(m, "type") == JStr("chat")
    requires Get(m, "to") == JObj(map["id" := id, "role" := JStr("athlete")])
    requires Complete(m) && PairRoles(Get(m, "sender"), Get(m, "to")).Paired?
    requires env.save == SaveReplied(Created, true)
    ensures var s1 := Step(s, Connect(a, FrameOf(map["id" := id, "role" := JStr("athlete")]))).state;
      var s2 := Step(s1, Connect(c, FrameOf(map["id" := id, "role" := JStr("coach")]))).state;
      && Lookup(s2, k) == Some(c)
      && Step(s2, Receive(a, id, FrameOf(m), env)).sent
         == [Delivery(c, Chat(ChatPayload(Get(m, "sender"), Get(m, "to"), Get(m, "message"), env.now)))]
  {
    var fa := FrameOf(map["id" := id, "role" := JStr("athlete")]);
    var fc := FrameOf(map["id" := id, "role" := JStr("coach")]);
    var s1 := Step(s, Connect(a, fa)).state;
    assert Get(fc.value.fields, "id") == id && Get(fc.value.fields, "role") == JStr("coach");
    HandshakeOpensExactlyOnClaim(s1, c, fc, k);
    var s2 := Step(s1, Connect(c, fc)).state;
    assert Get(m, "to").fields["id"] == id;
    StoredChatDeliveredXorQueued(s2, a, id, m, env, k);
  }


  // ---------------------------------------------------------- error replies

  /** A frame that does not parse is answered with "Invalid JSON" and the
      loop goes on; nothing else happens. */
  lemma MalformedFrameAnswered(s: State, c: Conn, u: Json, env: Env)
    ensures Step(s, Receive(c, u, Malformed, env)) == Outcome(s, [Delivery(c, Error(InvalidJson))], [], Open(u))
  {
  }

  /** A frame with no true `type` is answered with "Missing message type";
      state, backend and loop are untouched. */
  lemma MissingTypeAnswered(s: State, c: Conn, u: Json, m: map<string, Json>, env: Env)
    requires !Truthy(Get(m, "type"))
    ensures Step(s, Receive(c, u, FrameOf(m), env)) == Outcome(s, [Delivery(c, Error(MissingType))], [], Open(u))
  {
  }

  /** A chat without a true `sender`, `to` or `message` is answered with
      "Incomplete chat message"; state, backend and loop are untouched. */
  lemma IncompleteChatAnswered(s: State, c: Conn, u: Json, m: map<string, Json>, env: Env)
    requires Get(m, "type") == JStr("chat")
    requires !Truthy(Get(m, "sender")) || !Truthy(Get(m, "to")) || !Truthy(Get(m, "message"))
    ensures Step(s, Receive(c, u, FrameOf(m), env)) == Outcome(s, [Delivery(c, Error(IncompleteChat))], [], Open(u))
  {
  }

  /** Any frame answered with an error leaves registry and backlog as they
      were and keeps the loop running. */
  lemma ErrorReplyChangesNothing(s: State, c: Conn, u: Json, f: Inbound, env: Env)
    requires exists d :: d in Step(s, Receive(c, u, f, env)).sent && d.frame.Error?
    ensures Step(s, Receive(c, u, f, env)).state == s
    ensures Step(s, Receive(c, u, f, env)).session == Open(u)
    ensures Step(s, Receive(c, u, f, env)).sent == [Delivery(c, Step(s, Receive(c, u, f, env)).sent[0].frame)]
  {
  }

  // ------------------------------------------------------------ role pairing

  /** A complete chat with any other pairing is answered with "Invalid
      sender/receiver roles", with no backend call and no state change. */
  lemma InvalidRolesAnswered(s: State, c: Conn, u: Json, m: map<string, Json>, env: Env)
    requires Get(m, "type") == JStr("chat")
    requires Complete(m)
    requires PairRoles(Get(m, "sender"), Get(m, "to")).Mismatch?
    ensures Step(s, Receive(c, u, FrameOf(m), env)) == Outcome(s, [Delivery(c, Error(InvalidRoles))], [], Open(u))
  {
  }

  /** A complete, correctly paired chat makes exactly one backend call, with
      the athlete's id, the coach's id and the text. */
  lemma PairedChatSavedOnce(s: State, c: Conn, u: Json, m: map<string, Json>, env: Env)
    requires Get(m, "type") == JStr("chat")
    requires Complete(m)
    requires PairRoles(Get(m, "sender"), Get(m, "to")).Paired?
    ensures var p := PairRoles(Get(m, "sender"), Get(m, "to"));
      Step(s, Receive(c, u, FrameOf(m), env)).calls == [SaveChat(p.athleteId, p.coachId, Get(m, "message"))]
  {
  }

  // ------------------------------------------------------------ backend gate

  /** When storing fails (a status other than 201, a body that is not JSON,
      or an exception) the sender gets the error, and the chat is neither
      delivered nor queued. */
  lemma FailedSaveDropsChat(s: State, c: Conn, u: Json, m: map<string, Json>, env: Env)
    requires Get(m, "type") == JStr("chat")
    requires Complete(m)
    requires PairRoles(Get(m, "sender"), Get(m, "to")).Paired?
    requires env.save != SaveReplied(Created, true)
    ensures var reason := if env.save.SaveReplied? && env.save.jsonBody then SaveFailed else BackendUnreachable;
      && Step(s, Receive(c, u, FrameOf(m), env)).sent == [Delivery(c, Error(reason))]
      && Step(s, Receive(c, u, FrameOf(m), env)).state == s
      && Step(s, Receive(c, u, FrameOf(m), env)).session == Open(u)
  {
  }

  // --------------------------------------------------------- deliver or queue

  /** A complete, paired chat that the backend stored with 201, addressed to
      a hashable receiver id `k`, goes to exactly one place: to `k`'s live
      connection, leaving every backlog alone, or, when `k` is not
      registered, once onto the end of `k`'s backlog, with nothing sent.
      Either way the frame is `{from, to, message, timestamp}` with the time
      the reply came back, and the loop goes on. */
  lemma StoredChatDeliveredXorQueued(s: State, c: Conn, u: Json, m: map<string, Json>, env: Env, k: Key)
    requires Get(m, "type") == JStr("chat")
    requires Complete(m) && PairRoles(Get(m, "sender"), Get(m, "to")).Paired?
    requires env.save == SaveReplied(Created, true)
    requires KeyOf(Get(m, "to").fields["id"]) == Some(k)
    ensures var pair := PairRoles(Get(m, "sender"), Get(m, "to"));
      var p := ChatPayload(Get(m, "sender"), Get(m, "to"), Get(m, "message"), env.now);
      var o := Step(s, Receive(c, u, FrameOf(m), env));
      && o.session == Open(u)
      && o.calls == [SaveChat(pair.athleteId, pair.coachId, Get(m, "message"))]
      && (k in s.registry ==>
            o.sent == [Delivery(s.registry[k], Chat(p))] && o.state == s)
      && (k !in s.registry ==>
            && o.sent == []
            && o.state.registry == s.registry
            && Pending(o.state, k) == Pending(s, k) + [p]
            && forall j :: j != k ==> Pending(o.state, j) == Pending(s, j))
  {
  }

  /** No frame both delivers a chat and adds to a backlog. */
  lemma NeverDeliveredAndQueued(s: State, e: Event)
    requires e.Receive?
    ensures Step(s, e).state.backlog != s.backlog ==>
      forall d :: d in Step(s, e).sent ==> !d.frame.Chat?
  {
  }

  // ------------------------------------------------------------------ typing

  /** Typing never touches the backlog, the backend, or the loop's error
      replies; it is forwarded as `{type: "typing", from}` only to a
      registered receiver. */
  lemma TypingIsBestEffort(s: State, c: Conn, u: Json, m: map<string, Json>, env: Env)
    requires Get(m, "type") == JStr("typing")
    ensures var o := Step(s, Receive(c, u, FrameOf(m), env));
      && o.state.backlog == s.backlog
      && o.calls == []
      && (forall d :: d in o.sent ==> d.frame == Typing(Get(m, "sender")))
      && (!Truthy(Get(m, "sender")) || !Truthy(Get(m, "to")) ==> o.sent == [] && o.state == s)
  {
  }

  /** A typing event for a registered receiver reaches that receiver's
      connection; for an unregistered one it is dropped. */
  lemma TypingForwardedIffRegistered(s: State, c: Conn, u: Json, m: map<string, Json>, env: Env, k: Key)
    requires Get(m, "type") == JStr("typing")
    requires Truthy(Get(m, "sender")) && Truthy(Get(m, "to"))
    requires Index(Get(m, "to"), "id").Some? && KeyOf(Get(m, "to").fields["id"]) == Some(k)
    ensures k in s.registry ==>
      Step(s, Receive(c, u, FrameOf(m), env)).sent == [Delivery(s.registry[k], Typing(Get(m, "sender")))]
    ensures k !in s.registry ==> Step(s, Receive(c, u, FrameOf(m), env)).sent == []
    ensures Step(s, Receive(c, u, FrameOf(m), env)).state == s
  {
  }

  // --------------------------------------------------------------- chat list

  /** A roster request makes one backend call with the frame's `id`, is
      answered on the same connection, and changes no relay state. */
  lemma ChatListAnswered(s: State, c: Conn, u: Json, m: map<string, Json>, env: Env)
    requires Get(m, "type") == JStr("get_chat_list")
    ensures Step(s, Receive(c, u, FrameOf(m), env)) ==
      Outcome(s, [Delivery(c, ChatListReply(env.fetch))], [FetchChatList(Get(m, "id"))], Open(u))
  {
  }

  /** A frame whose true `type` is not one the relay knows is ignored. */
  lemma UnknownTypeIgnored(s: State, c: Conn, u: Json, m: map<string, Json>, env: Env)
    requires Truthy(Get(m, "type"))
    requires Get(m, "type") !in {JStr("chat"), JStr("typing"), JStr("get_chat_list")}
    ensures Step(s, Receive(c, u, FrameOf(m), env)) == Outcome(s, [], [], Open(u))
  {
  }

  // ------------------------------------------------------------------ crashes

  /** A frame whose handling raises ends the loop and runs the cleanup for
      the handler's id; no frame is sent and no backlog changes. */
  lemma CrashRunsTeardown(s: State, c: Conn, u: Json, f: Inbound, env: Env)
    requires Router.Route(s, c, f, env).broke
    ensures Step(s, Receive(c, u, f, env)).session.Closed?
    ensures Step(s, Receive(c, u, f, env)).state == Teardown(s, u)
    ensures Step(s, Receive(c, u, f, env)).sent == []
  {
  }
}

=== FILE: protocol.dfy ===
/** The frames the relay exchanges, the calls it makes to the chat backend and
    the outcomes of those calls. Connections are opaque handles. */
module Protocol {
  import opened Values

  /** The ISO-8601 text of the server clock when a chat is accepted; supplied
      from outside the model. */
  type Timestamp = string

  /** An opaque connection handle. */
  datatype Conn = Conn(handle: nat)

  /** One inbound text frame: decoded JSON, or text that does not parse. */
  datatype Inbound = Parsed(value: Json) | Malformed

  /** The chat frame built once the backend has stored a message; it is both
      what a connected receiver gets and what an offline receiver's backlog
      keeps. `from` and `to` are the sender and receiver objects verbatim. */
  datatype ChatPayload = ChatPayload(from: Json, to: Json, message: Json, timestamp: Timestamp)

  /** The outbound frames, by their JSON shape. */
  datatype Outbound =
    | Error(reason: string)           // {"error": reason}
    | Chat(payload: ChatPayload)      // {"type": "chat", "from", "to", "message", "timestamp"}
    | Typing(from: Json)              // {"type": "typing", "from"}
    | ChatList(athletes: Json)        // {"type": "chat_list", "athletes"}
    | ChatListError(reason: string)   // {"type": "chat_list", "error": reason}

  /** A frame sent to a connection. */
  datatype Delivery = Delivery(to: Conn, frame: Outbound)

  /** Requests to the backend: store a chat message, fetch a coach's roster. */
  datatype BackendCall =
    | SaveChat(athleteId: Json, coachId: Json, message: Json)
    | FetchChatList(coachId: Json)

  /** What storing a chat came back with: an HTTP status and whether the body
      decodes as JSON, or an exception from the HTTP client. */
  datatype SaveOutcome = SaveReplied(status: int, jsonBody: bool) | SaveRaised

  /** What fetching a roster came back with: an HTTP status and the decoded
      body (`None` when it is not JSON), or an exception. */
  datatype FetchOutcome = FetchReplied(status: int, body: Option<Json>) | FetchRaised

  /** Everything a frame's handling learns from outside the relay. */
  datatype Env = Env(save: SaveOutcome, fetch: FetchOutcome, now: Timestamp)

  const MissingIdOrRole := "Missing id or role"
  const InvalidJson := "Invalid JSON"
  const MissingType := "Missing message type"
  const IncompleteChat := "Incomplete chat message"
  const InvalidRoles := "Invalid sender/receiver roles"
  const SaveFailed := "Failed to save chat message"
  const BackendUnreachable := "Could not contact backend"
  const FetchFailed := "Failed to fetch athlete list"
  const ServerError := "Server error"

  /** The only status the relay treats as "chat stored". */
  const Created := 201
  /** The only status the relay treats as "roster fetched". */
  const Ok := 200
}

=== FILE: relay.dfy ===
/** The relay's shared state: the registry of live connections and the
    per-user backlog of chat frames waiting for a receiver who is offline.
    Both maps are keyed by the bare user id, with no role. */
module Relay {
  import opened Values
  import opened Protocol

  datatype State = State(registry: map<Key, Conn>, backlog: map<Key, seq<ChatPayload>>)

  /** The state when the process starts. */
  const Initial := State(map[], map[])

  /** `connected_clients.get(k)`: the live connection of `k`, or `None`
      when `k` is not registered. */
  function Lookup(s: State, k: Key): (r: Option<Conn>)
    ensures r.None? <==> k !in s.registry
    ensures r.Some? ==> s.registry[k] == r.value
  {
    if k in s.registry then Some(s.registry[k]) else None
  }

  /** `offline_messages.get(k, [])`: the chat frames waiting for `k`. */
  function Pending(s: State, k: Key): seq<ChatPayload> {
    if k in s.backlog then s.backlog[k] else []
  }

  /** `connected_clients[k] = c`: binds `k` to `c`, replacing any connection
      it was bound to; nobody else's entry and no backlog changes. */
  function Register(s: State, k: Key, c: Conn): (t: State)
    ensures Lookup(t, k) == Some(c)
    ensures forall j :: j != k ==> Lookup(t, j) == Lookup(s, j)
    ensures t.registry.Keys == s.registry.Keys + {k}
    ensures t.backlog == s.backlog
  {
    s.(registry := s.registry[k := c])
  }

  /** `del connected_clients[k]` when present: removes `k`'s entry whichever
      connection it holds; nobody else's entry and no backlog changes. */
  function Unregister(s: State, k: Key): (t: State)
    ensures Lookup(t, k) == None
    ensures forall j :: j != k ==> Lookup(t, j) == Lookup(s, j)
    ensures t.registry.Keys == s.registry.Keys - {k}
    ensures t.backlog == s.backlog
  {
    s.(registry := s.registry - {k})
  }

  /** `offline_messages.setdefault(k, []).append(p)`: `p` goes to the end of
      `k`'s backlog, which is created when absent. */
  function Enqueue(s: State, k: Key, p: ChatPayload): (t: State)
    ensures Pending(t, k) == Pending(s, k) + [p]
    ensures forall j :: j != k ==> Pending(t, j) == Pending(s, j)
    ensures t.backlog.Keys == s.backlog.Keys + {k}
    ensures t.registry == s.registry
  {
    s.(backlog := s.backlog[k := Pending(s, k) + [p]])
  }

  /** `del offline_messages[k]` after the backlog has been sent. */
  function ClearBacklog(s: State, k: Key): (t: State)
    ensures Pending(t, k) == []
    ensures forall j :: j != k ==> Pending(t, j) == Pending(s, j)
    ensures t.backlog.Keys == s.backlog.Keys - {k}
    ensures t.registry == s.registry
  {
    s.(backlog := s.backlog - {k})
  }

  /** The frames that send the queued payloads `q` to `c`, one per payload,
      in queue order. */
  function DeliverAll(c: Conn, q: seq<ChatPayload>): (r: seq<Delivery>)
    ensures |r| == |q|
    ensures forall i :: 0 <= i < |q| ==> r[i] == Delivery(c, Chat(q[i]))
  {
    if q == [] then [] else [Delivery(c, Chat(q[0]))] + DeliverAll(c, q[1..])
  }

  /** The replay loop run right after registration, written as the loop it
      is: each payload queued for `k` is sent to `c` in queue order, then the
      backlog entry is deleted. Nothing is sent when `k` has no backlog. Its
      contract shows the loop computes exactly `DeliverAll` and
      `ClearBacklog`, the closed forms `Lifecycle.Handshake` is built from. */
  method DrainBacklog(s: State, k: Key, c: Conn) returns (t: State, sent: seq<Delivery>)
    ensures |sent| == |Pending(s, k)|
    ensures forall i :: 0 <= i < |sent| ==> sent[i] == Delivery(c, Chat(Pending(s, k)[i]))
    ensures sent == DeliverAll(c, Pending(s, k))
    ensures t == ClearBacklog(s, k)
  {
    sent := [];
    t := s;
    if k in s.backlog {
      var q := s.backlog[k];
      var i := 0;
      while i < |q|
        invariant 0 <= i <= |q|
        invariant |sent| == i
        invariant forall j :: 0 <= j < i ==> sent[j] == Delivery(c, Chat(q[j]))
      {
        sent := sent + [Delivery(c, Chat(q[i]))];
        i := i + 1;
      }
      t := ClearBacklog(s, k);
    } else {
      assert s.backlog - {k} == s.backlog;
    }
  }
}

=== FILE: router.dfy ===
/** Handling of one inbound frame on an established connection: dispatch by
    `type`, validation, role pairing, the backend gate, and the choice between
    delivering a chat inline and queueing it. */
module Router {
  import opened Values
  import opened Protocol
  import opened Relay

  /** The two role pairings a chat may have. */
  predicate AcceptedRoles(senderRole: Json, receiverRole: Json) {
    || (senderRole == JStr("athlete") && receiverRole == JStr("coach"))
    || (senderRole == JStr("coach") && receiverRole == JStr("athlete"))
  }

  /** Result of checking a chat's roles: the ids the backend is called with,
      a pairing the relay refuses, or a subscript that raised. */
  datatype Pairing = Paired(athleteId: Json, coachId: Json) | Mismatch | Raised

  /** Role pairing, with Python's evaluation order: the receiver's role is
      read only when the sender's role is "athlete" or "coach", so a sender
      with any other role is refused even if the receiver has no role at all. */
  function PairRoles(sender: Json, receiver: Json): (p: Pairing)
    ensures p.Paired? <==>
      && Index(sender, "role").Some? && Index(receiver, "role").Some?
      && AcceptedRoles(sender.fields["role"], receiver.fields["role"])
      && Index(sender, "id").Some? && Index(receiver, "id").Some?
    ensures p.Paired? && sender.fields["role"] == JStr("athlete") ==>
      p == Paired(sender.fields["id"], receiver.fields["id"])
    ensures p.Paired? && sender.fields["role"] == JStr("coach") ==>
      p == Paired(receiver.fields["id"], sender.fields["id"])
    ensures p.Mismatch? <==>
      && Index(sender, "role").Some?
      && (|| sender.fields["role"] !in {JStr("athlete"), JStr("coach")}
          || (Index(receiver, "role").Some? && !AcceptedRoles(sender.fields["role"], receiver.fields["role"])))
  {
    match Index(sender, "role")
    case None => Raised
    case Some(senderRole) =>
      if senderRole == JStr("athlete") then
        match Index(receiver, "role")
        case None => Raised
        case Some(receiverRole) =>
          if receiverRole == JStr("coach") then
            match Index(sender, "id")
            case None => Raised
            case Some(athleteId) =>
              match Index(receiver, "id")
              case None => Raised
              case Some(coachId) => Paired(athleteId, coachId)
          else Mismatch
      else if senderRole == JStr("coach") then
        match Index(receiver, "role")
        case None => Raised
        case Some(receiverRole) =>
          if receiverRole == JStr("athlete") then
            match Index(receiver, "id")
            case None => Raised
            case Some(athleteId) =>
              match Index(sender, "id")
              case None => Raised
              case Some(coachId) => Paired(athleteId, coachId)
          else Mismatch
      else Mismatch
  }

  /** The error a sender gets when storing its chat failed, or `None` when it
      was stored. A failure status whose body is not JSON makes the logging
      call `res.json()` raise, so that case reports an unreachable backend. */
  function SaveError(o: SaveOutcome): (e: Option<string>)
    ensures e.None? <==> o == SaveReplied(Created, true)
    ensures e == Some(SaveFailed) <==> o.SaveReplied? && o.status != Created && o.jsonBody
    ensures e.Some? ==> e.value == SaveFailed || e.value == BackendUnreachable
  {
    match o
    case SaveRaised => Some(BackendUnreachable)
    case SaveReplied(status, jsonBody) =>
      if !jsonBody then Some(BackendUnreachable)
      else if status != Created then Some(SaveFailed)
      else None
  }

  /** What becomes of a chat frame, before the registry is consulted. */
  datatype ChatDecision =
    | Refused(reason: string, calls: seq<BackendCall>)            // error frame to the sender; loop goes on
    | Crashed(calls: seq<BackendCall>)                            // an exception breaks the loop
    | Accepted(receiver: Key, payload: ChatPayload, call: BackendCall)

  /** A chat frame whose sender, receiver and text are all true values. */
  predicate Complete(m: map<string, Json>) {
    Truthy(Get(m, "sender")) && Truthy(Get(m, "to")) && Truthy(Get(m, "message"))
  }

  /** The validation and backend gate for a chat frame with fields `m`. A
      complete, paired chat that the backend stored with 201 and whose
      receiver id is hashable is always accepted, for that receiver; every
      other chat is refused or crashes, each for the reason the handler has. */
  function DecideChat(m: map<string, Json>, env: Env): (d: ChatDecision)
    ensures d.Accepted? <==>
      && Complete(m) && PairRoles(Get(m, "sender"), Get(m, "to")).Paired?
      && SaveError(env.save).None? && KeyOf(Get(m, "to").fields["id"]).Some?
    ensures d.Accepted? ==> d.receiver == KeyOf(Get(m, "to").fields["id"]).value
    ensures d.Crashed? <==>
      && Complete(m)
      && (|| PairRoles(Get(m, "sender"), Get(m, "to")).Raised?
          || (&& PairRoles(Get(m, "sender"), Get(m, "to")).Paired?
              && SaveError(env.save).None? && KeyOf(Get(m, "to").fields["id"]).None?))
    ensures d.Refused? && d.reason == IncompleteChat <==> !Complete(m)
    ensures d.Refused? && d.reason == InvalidRoles <==>
      Complete(m) && PairRoles(Get(m, "sender"), Get(m, "to")).Mismatch?
    ensures d == Crashed([]) <==> Complete(m) && PairRoles(Get(m, "sender"), Get(m, "to")).Raised?
    ensures Complete(m) && PairRoles(Get(m, "sender"), Get(m, "to")).Paired? && SaveError(env.save).Some? ==>
      d.Refused? && d.reason == SaveError(env.save).value
    ensures d.Accepted? ==>
      && env.save == SaveReplied(Created, true)
      && d.payload == ChatPayload(Get(m, "sender"), Get(m, "to"), Get(m, "message"), env.now)
      && Index(Get(m, "to"), "id").Some?
      && KeyOf(Get(m, "to").fields["id"]) == Some(d.receiver)
    ensures d.Refused? ==> d.reason in {IncompleteChat, InvalidRoles, SaveFailed, BackendUnreachable}
    ensures d.Refused? && d.reason in {IncompleteChat, InvalidRoles} ==> d.calls == []
    ensures d.Refused? && d.reason in {SaveFailed, BackendUnreachable} ==> |d.calls| == 1
    ensures d.Crashed? ==> |d.calls| <= 1
  {
    var sender := Get(m, "sender");
    var receiver := Get(m, "to");
    var text := Get(m, "message");
    if !Complete(m) then
      Refused(IncompleteChat, [])
    else
      match PairRoles(sender, receiver)
      case Raised => Crashed([])
      case Mismatch => Refused(InvalidRoles, [])
      case Paired(athleteId, coachId) =>
        var call := SaveChat(athleteId, coachId, text);
        match SaveError(env.save)
        case Some(reason) => Refused(reason, [call])
        case None =>
          // `receiver["id"]` is read again when looking the receiver up
          match Index(receiver, "id")
          case None => Crashed([call])
          case Some(receiverId) =>
            match KeyOf(receiverId)
            case None => Crashed([call])
            case Some(k) => Accepted(k, ChatPayload(sender, receiver, text, env.now), call)
  }

  /** The frame a `get_chat_list` request is answered with. A 200 reply is
      answered with its `athletes` field (an empty list when the field is
      absent) if its body is a JSON object; a 200 reply with any other body
      and an exception both give "Server error". */
  function ChatListReply(o: FetchOutcome): (f: Outbound)
    ensures f.ChatList? <==> o.FetchReplied? && o.status == Ok && o.body.Some? && o.body.value.JObj?
    ensures f.ChatList? && "athletes" in o.body.value.fields ==> f.athletes == o.body.value.fields["athletes"]
    ensures f.ChatList? && "athletes" !in o.body.value.fields ==> f.athletes == JArr([])
    ensures f == ChatListError(FetchFailed) <==> o.FetchReplied? && o.status != Ok
    ensures !f.ChatList? && f != ChatListError(FetchFailed) ==> f == ChatListError(ServerError)
  {
    match o
    case FetchRaised => ChatListError(ServerError)
    case FetchReplied(status, body) =>
      if status != Ok then ChatListError(FetchFailed)
      else
        match body
        case Some(JObj(fields)) => ChatList(if "athletes" in fields then fields["athletes"] else JArr([]))
        case _ => ChatListError(ServerError)
  }

  /** The effect of handling one frame: the new state, the frames sent, the
      backend calls made, and whether an exception broke the loop. */
  datatype Routed = Routed(state: State, sent: seq<Delivery>, calls: seq<BackendCall>, broke: bool)

  /** Handles one inbound frame read on connection `self`. */
  function Route(s: State, self: Conn, f: Inbound, env: Env): (r: Routed)
    ensures r.state.registry == s.registry
    ensures r.broke ==> r.state == s && r.sent == []
    ensures |r.sent| <= 1 && |r.calls| <= 1
    ensures r.state == s || exists k, p :: r.state == Enqueue(s, k, p)
    ensures f.Malformed? ==> !r.broke
    ensures f.Parsed? && !f.value.JObj? ==> r.broke
    ensures f.Parsed? && f.value.JObj? && Get(f.value.fields, "type") == JStr("chat") ==>
      (r.broke <==> DecideChat(f.value.fields, env).Crashed?)
    ensures f.Parsed? && f.value.JObj? && Get(f.value.fields, "type") == JStr("typing") ==>
      r == RouteTyping(s, f.value.fields)
    ensures f.Parsed? && f.value.JObj? && Get(f.value.fields, "type") !in {JStr("chat"), JStr("typing")} ==>
      !r.broke
  {
    match f
    case Malformed => Routed(s, [Delivery(self, Error(InvalidJson))], [], false)
    case Parsed(v) =>
      match v
      case JObj(m) =>
        var kind := Get(m, "type");
        if !Truthy(kind) then Routed(s, [Delivery(self, Error(MissingType))], [], false)
        else if kind == JStr("chat") then RouteChat(s, self, m, env)
        else if kind == JStr("typing") then RouteTyping(s, m)
        else if kind == JStr("get_chat_list") then
          Routed(s, [Delivery(self, ChatListReply(env.fetch))], [FetchChatList(Get(m, "id"))], false)
        else Routed(s, [], [], false)
      case _ =>
        // `.get` on a value that is not a dict raises
        Routed(s, [], [], true)
  }

  /** A chat frame: refused, crashed, delivered to the receiver's live
      connection, or appended to the receiver's backlog. */
  function RouteChat(s: State, self: Conn, m: map<string, Json>, env: Env): (r: Routed)
    ensures r.state.registry == s.registry
    ensures r.broke ==> r.state == s && r.sent == []
    ensures |r.sent| <= 1 && |r.calls| <= 1
    ensures r.state == s || exists k, p :: r.state == Enqueue(s, k, p)
    ensures r.broke <==> DecideChat(m, env).Crashed?
  {
    match DecideChat(m, env)
    case Refused(reason, calls) => Routed(s, [Delivery(self, Error(reason))], calls, false)
    case Crashed(calls) => Routed(s, [], calls, true)
    case Accepted(k, payload, call) =>
      match Lookup(s, k)
      case Some(c) => Routed(s, [Delivery(c, Chat(payload))], [call], false)
      case None => Routed(Enqueue(s, k, payload), [], [call], false)
  }

  /** A typing frame: forwarded to the receiver's live connection, otherwise
      dropped; never queued and never answered with an error. */
  function RouteTyping(s: State, m: map<string, Json>): (r: Routed)
    ensures r.state == s && r.calls == []
    ensures |r.sent| <= 1
    ensures forall d :: d in r.sent ==> d.frame == Typing(Get(m, "sender"))
    ensures !Truthy(Get(m, "sender")) || !Truthy(Get(m, "to")) ==> !r.broke && r.sent == []
    ensures Truthy(Get(m, "sender")) && Truthy(Get(m, "to")) ==>
      (r.broke <==> Index(Get(m, "to"), "id").None? || KeyOf(Get(m, "to").fields["id"]).None?)
  {
    var sender := Get(m, "sender");
    var receiver := Get(m, "to");
    if !Truthy(sender) || !Truthy(receiver) then Routed(s, [], [], false)
    else
      match Index(receiver, "id")
      case None => Routed(s, [], [], true)
      case Some(receiverId) =>
        match KeyOf(receiverId)
        case None => Routed(s, [], [], true)
        case Some(k) =>
          match Lookup(s, k)
          case Some(c) => Routed(s, [Delivery(c, Typing(sender))], [], false)
          case None => Routed(s, [], [], false)
  }
}

=== FILE: values.dfy ===
/** Decoded JSON values and the two pieces of Python's object model the relay
    depends on: truth values (`if not x`) and dictionary-key equality.
    Every frame the relay reads is a decoded JSON document, and the relay never
    checks its shape before using it, so the shape matters to the model. */
module Values {

  datatype Option<+T> = None | Some(value: T)

  /** A decoded JSON document. Numbers are integers only (see README). */
  datatype Json =
    | JNull
    | JBool(b: bool)
    | JNum(n: int)
    | JStr(s: string)
    | JArr(items: seq<Json>)
    | JObj(fields: map<string, Json>)

  /** Python's truth value of the decoded object: `None`, `False`, `0`, `""`,
      `[]` and `{}` are false, everything else is true. */
  function Truthy(v: Json): (b: bool)
    ensures !b <==> v == JNull || v == JBool(false) || v == JNum(0) || v == JStr("") || v == JArr([]) || v == JObj(map[])
  {
    match v
    case JNull => false
    case JBool(b) => b
    case JNum(n) => n != 0
    case JStr(s) => s != ""
    case JArr(items) => items != []
    case JObj(fields) => fields != map[]
  }

  /** `d.get(name)` on a dict. A missing field reads as `None`, which is also
      what a JSON `null` decodes to, so the two cannot be told apart. */
  function Get(fields: map<string, Json>, name: string): (r: Json)
    ensures Index(JObj(fields), name).Some? ==> r == Index(JObj(fields), name).value
    ensures Index(JObj(fields), name).None? ==> r == JNull
  {
    if name in fields then fields[name] else JNull
  }

  /** `v[name]`: defined only on a dict that holds the field; on anything else
      Python raises (`KeyError` on a dict, `TypeError` on other values). */
  function Index(v: Json, name: string): (r: Option<Json>)
    ensures r.Some? <==> v.JObj? && name in v.fields
    ensures r.Some? ==> r.value == v.fields[name]
  {
    match v
    case JObj(fields) => if name in fields then Some(fields[name]) else None
    case _ => None
  }

  /** A hashable decoded value used as a dictionary key. Python compares keys
      by value and `True == 1`, `False == 0`, so booleans become integers. */
  datatype Key = KNone | KInt(i: int) | KStr(s: string)

  /** Truth value of a key, matching `Truthy` of the value it came from. */
  predicate KeyTruthy(k: Key) {
    match k
    case KNone => false
    case KInt(i) => i != 0
    case KStr(s) => s != ""
  }

  /** The dictionary key a decoded value hashes to; `None` when hashing raises
      `TypeError` (lists and dicts are unhashable). */
  function KeyOf(v: Json): (r: Option<Key>)
    ensures r.None? <==> v.JArr? || v.JObj?
    ensures r.Some? ==> (KeyTruthy(r.value) <==> Truthy(v))
  {
    match v
    case JNull => Some(KNone)
    case JBool(b) => Some(KInt(if b then 1 else 0))
    case JNum(n) => Some(KInt(n))
    case JStr(s) => Some(KStr(s))
    case JArr(_) => None
    case JObj(_) => None
  }

  /** Two hashable decoded values land on the same dictionary entry exactly
      when they are equal, or when one is a boolean and the other the integer
      it equals: `true` shares the entry of `1`, and `false` that of `0`. */
  lemma SameKeySameValue(v: Json, w: Json)
    requires KeyOf(v).Some? && KeyOf(w).Some?
    ensures KeyOf(v) == KeyOf(w) <==>
      v == w || {v, w} == {JBool(true), JNum(1)} || {v, w} == {JBool(false), JNum(0)}
  {
  }
}
